=== FILE: README.md ===
# Thread lifecycle and process termination of a teaching kernel

This project models the thread layer of a small teaching operating system
(`kernel_threads.c`) and proves properties of that model in Dafny.

The thread layer has five system calls: `sys_CreateThread`, `sys_ThreadSelf`,
`sys_ThreadJoin`, `sys_ThreadDetach` and `sys_ThreadExit`. Each thread has a
wrapper record (a PTCB). The wrapper holds `exited`, `detached`, `refcount`
and `exitval`, and sits in its process's wrapper list. When the last thread of
a process exits, `sys_ThreadExit` also tears the process down:
- the process's children are handed to the init process (pid 1);
- its already-exited children move to init's exited list;
- the process is published on its parent's exited list;
- its argument buffer and file-descriptor table (FIDT) are released;
- it becomes a zombie.

Every kernel entry runs under one kernel-wide lock, so each call is one atomic
transition over immutable records:
- `KernelTypes` (`types.dfy`) holds the records. A wrapper is a `Ptcb`. A process
  is a `Pcb`, whose wrapper list is a `map<Tid, Ptcb>` and whose children and
  exited lists are multisets. The process table is a `map<Pid, Pcb>`.
- `Threads` (`threads.dfy`) models create, self, join, detach and the exit of a
  thread that is not the last. Join blocks in exactly one place, its wait loop,
  so it is split in two. `JoinBegin` runs the checks and the `refcount`
  increment. `JoinFinish` is what runs once the target is exited or detached.
  The module also states the process invariant `ValidPcb`: `thread_count`
  equals the number of listed wrappers that have not exited. It proves that
  every thread operation preserves it, and `ProcessExit` proves the same for
  the zombie left by a last exit.
- `ProcessExit` (`exit.dfy`) models `sys_ThreadExit` over the process table.
  The last-thread cascade is written as one function per step, in the code's
  order.
- `FileTable` (`fidt.dfy`) models the FIDT release loop.
- `WrapperCleanup` (`cleanup.dfy`) models the loop that frees the wrappers, both
  as written and as intended (see Findings).
- `Scenarios` (`scenarios.dfy`) holds two concrete runs: a join cancelled by a
  detach, and a last exit with one running child and one zombie child.

Two behaviours of the code are easy to miss. The model keeps both:
- Join on a detached target returns -1 before the `refcount == 0` test. So a
  detached wrapper is never unlinked by a joiner, even when its count drops
  to 0 (kernel_threads.c:69-71).
- On the last-thread path, the exit value and `exited` flag are written to the
  caller's wrapper after the cleanup loop has unlinked it from the list. With
  the intended loop that wrapper is already freed. With the loop as written it
  is freed only when it was not first in the list, and never when it is the only
  wrapper: then the write goes to a wrapper that is unlinked and leaked. In the
  model the wrapper is no longer listed and the write has no visible effect.

## Model

| member | source | states |
|---|---|---|
| `Threads.CreateThread` | kernel_threads.c:12-28 | exactly one new wrapper, at the new id, joins the list: not exited, not detached, refcount 0, holding the task and arguments; all old wrappers are unchanged; `thread_count` rises by exactly 1; the call returns that wrapper's id; nothing else in the PCB changes |
| `Threads.CreateThreads` | kernel_threads.c:12-28 | creating N threads at N distinct unused ids raises `thread_count` by N and adds exactly those N ids to the wrapper list |
| `Threads.CreatePreservesValid` | kernel_threads.c:20-24 | creation keeps `thread_count` equal to the number of non-exited wrappers, and keeps the null id out of the list |
| `Threads.JoinBegin` | kernel_threads.c:42-60 | join is rejected (-1, PCB unchanged) iff the id is NOTHREAD, is the caller's own id, or is not in the caller's wrapper list; otherwise only the target's `refcount` rises by 1 |
| `Threads.JoinRejectedUnchanged` | kernel_threads.c:48-56 | each of the three pre-wait failures returns -1 and leaves the process unchanged |
| `Threads.JoinSelfRejected` | kernel_threads.c:34-53 | `ThreadSelf` returns `cur.ptcb`, the running thread's wrapper address (line 36); joining that id always fails without waiting |
| `Threads.JoinBeginPreservesValid` | kernel_threads.c:60 | the refcount increment keeps the process invariant |
| `Threads.JoinFinish` | kernel_threads.c:62-83 | after the wait (target exited or detached) the target's `refcount` drops by 1; a detached target gives -1, stores nothing and is never unlinked; an exited, undetached target gives 0, stores `exitval` iff the out-pointer is non-null, and is unlinked iff its count is now 0; no other wrapper or PCB field changes |
| `Threads.JoinFinishPreservesValid` | kernel_threads.c:78-81 | the last joiner's unlink removes only an exited wrapper, so the process invariant holds |
| `Threads.JoinNetRefcount` | kernel_threads.c:60-67 | for a target already exited or detached when the join begins, a begin followed by a finish leaves the PCB exactly as it was, or, when the count was 0 before the join, removes the wrapper and changes nothing else |
| `Threads.JoinAfterExit` | kernel_threads.c:73-83 | once an undetached thread has exited with value v, a sibling's join returns 0 and stores v |
| `Threads.JoinWaitEndedByDetach` | kernel_threads.c:60-71 | a join that waits on a live, undetached target and is woken by a detach returns -1, stores nothing, leaves the wrapper listed, and leaves its refcount as it was before the join |
| `Threads.JoinWaitEndedByExit` | kernel_threads.c:60-83 | a join that waits on a live, undetached target and is woken by its exit with v returns 0, stores v iff the pointer is non-null, and frees the wrapper iff nobody else was joining; otherwise the refcount is back to its pre-join value |
| `Threads.FinishJoiners` | kernel_threads.c:67-81 | woken joiners, each with its own out-pointer (null or not), finishing one after another produce exactly one result each |
| `Threads.JoinersAgree` | kernel_threads.c:67-81 | when the count equals the number of waiting joiners, they all see the same outcome (0, with the exit value stored for exactly those whose out-pointer is non-null, or -1 and nothing stored if detached); no joiner but the last frees the wrapper, and the last frees it iff the target is not detached |
| `Threads.Detach` | kernel_threads.c:90-112 | detach returns -1 with no change iff the id is NOTHREAD, not in the list, or already exited; otherwise it returns 0 and sets only that wrapper's `detached` flag |
| `Threads.DetachPreservesValid` | kernel_threads.c:107 | detach keeps the process invariant |
| `Threads.DetachIdempotent` | kernel_threads.c:103-109 | a second detach of a live, already detached thread succeeds again and changes nothing |
| `Threads.DetachFailsWaitingJoiner` | kernel_threads.c:106-110 | a joiner already waiting when a live target is detached wakes to -1 and leaves the wrapper listed |
| `Threads.DetachFailsLaterJoiner` | kernel_threads.c:69-71 | a join begun after a successful detach fails |
| `Threads.ExitNotLast` | kernel_threads.c:200-214 | a non-last exit decrements `thread_count` by 1; a detached caller's wrapper is removed; otherwise the wrapper stays listed with `exitval` set and `exited` true; nothing else changes |
| `Threads.ExitNotLastPreservesValid` | kernel_threads.c:201-210 | a live caller's non-last exit keeps the process invariant, whether its wrapper is freed or kept |
| `Threads.LastThreadIsOnlyLive` | kernel_threads.c:124 | under the invariant, a live caller takes the last-thread branch iff it is the only non-exited wrapper; otherwise `thread_count` is at least 2 |
| `ProcessExit.ThreadExit` | kernel_threads.c:119-218 | when `thread_count` is not 1, exit touches only the caller's process, exactly as `ExitNotLast`, and releases no files |
| `ProcessExit.DropWrappers` | kernel_threads.c:126-133 | every wrapper of the process is gone; no other field or process changes |
| `ProcessExit.AdoptedByInit` | kernel_threads.c:141 | exactly the listed children get init as parent; no other field changes |
| `ProcessExit.Reparent` | kernel_threads.c:138-143 | the process's children list is empty; every former child has init as parent and is appended to init's children; only `parent` and `children` fields change |
| `ProcessExit.MoveExited` | kernel_threads.c:147-150 | the exited list is appended to init's exited list and left empty; only `exited` fields change |
| `ProcessExit.PublishZombie` | kernel_threads.c:155-158 | a process other than init is added once to its parent's exited list; init publishes nothing |
| `ProcessExit.Retire` | kernel_threads.c:169-191 | args is NULL, every FIDT slot is NULL, `thread_count` drops by 1, `main_thread` is NULL and the state is ZOMBIE; nothing else changes |
| `ProcessExit.Cascade` | kernel_threads.c:126-158 | the four list steps keep the set of processes and leave the exiting process with no wrappers and its FIDT untouched |
| `ProcessExit.LastThreadExit` | kernel_threads.c:124-197 | a completed cascade keeps the set of processes and decrefs exactly the populated FIDT entries |
| `ProcessExit.CascadeHaltsIff` | kernel_threads.c:161-162 | the emptiness assertions fail iff a process other than init is still its own parent when it is published |
| `ProcessExit.CascadeLeftOver` | kernel_threads.c:129-162 | after the cleanup, reparenting, exited-list and publishing steps (lines 129-158) the exiting process has no children left, and its exited list holds only the process itself, exactly when a non-init process was its own parent and not its own child; otherwise it is empty |
| `ProcessExit.CascadeCompletes` | kernel_threads.c:124-191 | for an ordinary exit the assertions hold and the run reaches the zombie state |
| `ProcessExit.CascadeEmptiesProcess` | kernel_threads.c:129-191 | afterwards the process has no wrappers, children or exited children; args and every FIDT slot are NULL; `thread_count` drops by 1; `main_thread` is NULL; the state is ZOMBIE |
| `ProcessExit.CascadeSetsParent` | kernel_threads.c:139-143 | one former child ends with init as its parent |
| `ProcessExit.CascadeReparentsChildren` | kernel_threads.c:139-143 | every former child ends with init as its parent |
| `ProcessExit.CascadeAdoptsChildren` | kernel_threads.c:139-143 | init's children list becomes its old children plus the former children |
| `ProcessExit.CascadeMovesExited` | kernel_threads.c:147-158 | init's exited list becomes its old exited list, plus the former exited entries, plus the process itself when init is its parent |
| `ProcessExit.CascadePublishesZombie` | kernel_threads.c:155-158 | the process is in its old parent's exited list, added exactly once when that parent is not init |
| `ProcessExit.CascadeChangesNothingElse` | kernel_threads.c:124-191 | no process other than the exiting one, init, its parent and its children changes |
| `ProcessExit.LastExitPreservesValid` | kernel_threads.c:129-185 | the zombie left by a last exit has no wrappers and a zero thread count, so it satisfies the process invariant |
| `ProcessExit.LastExitCascade` | kernel_threads.c:124-191 | the whole last-thread exit of a non-root process: all of the cascade facts above, plus the exact FIDT entries released |
| `ProcessExit.RootLastExit` | kernel_threads.c:152-158 | init's last exit (no children, no exited children) pushes onto no parent list and changes no other process |
| `FileTable.Populated` | kernel_threads.c:176-181 | the entries released are exactly the file objects present in the table |
| `FileTable.Cleared` | kernel_threads.c:176-181 | a cleared table keeps its length and every slot is NULL |
| `FileTable.CloseFidt` | kernel_threads.c:176-181 | the loop clears every slot and decrefs exactly the populated entries, in slot order |
| `WrapperCleanup.CleanupAsWritten` | kernel_threads.c:129-133 | the loop as written frees, at iteration i, the wrapper at position i+1, and in the last iteration the list head's own payload |
| `WrapperCleanup.CleanupAsWrittenLeaksHead` | kernel_threads.c:129-133 | as written, the first wrapper of a non-empty list of distinct wrappers is never freed, and the last free hits the list head |
| `WrapperCleanup.CleanupAsWrittenSingleton` | kernel_threads.c:129-133 | with one wrapper, only the list head's payload is freed |
| `WrapperCleanup.CleanupCorrected` | kernel_threads.c:129-133 | the intended loop frees every listed wrapper exactly once, in list order |
| `Scenarios.DetachThenJoinScenario` | kernel_threads.c:42-112 | T1 joins T2 and T2 is detached: the join fails; T1 then exits with 7; the main thread's join on T1 returns 0 with 7 and frees T1 |
| `Scenarios.LastExitScenario` | kernel_threads.c:124-191 | the last exit (value 3) of a process with running child C and zombie child Z: C is init's child with init as parent, Z and the process are on init's exited list, and the one open file is released |

## Left out

- Scheduler and blocking primitives (`spawn_thread`, `wakeup`, `kernel_wait`, `kernel_broadcast`, `kernel_sleep`, the `start_thread` trampoline) belong to the scheduler, which is not part of this model. The join wait is the `JoinBegin`/`JoinFinish` split, and exit is terminal.
- The `child_exit` broadcasts to init and to the parent are scheduler wake-ups, so they are not modelled.
- `free` is removal from the owning map. The record of which pointers are freed is modelled only in `WrapperCleanup`.
- `ptcb_Init`, `FCB_decref`, `get_pcb`/`get_pid` and the `rlist` list primitives are not part of this model:
  - a new wrapper is taken to start not exited, not detached, with refcount 0 and exit value 0;
  - each `FCB_decref` call is recorded as an entry of `decrefs`;
  - the allocator's fresh wrapper address is a parameter of creation.
- `MAX_FILEID` is defined in `tinyos.h`, which is not part of this model. The FIDT loop runs over the whole table, whatever its length.
- List order is not modelled. Children and exited lists are multisets, so the order reversal of the front-pop/front-push reparenting is not represented.
- Threads.JoinFinish: requires the target wrapper to still be listed. At kernel_threads.c:206-210 a detached thread's exit frees its wrapper even while woken joiners still hold `refcount`. Those joiners then read freed memory, and a map cannot express that.
- ProcessExit.LastThreadExit: the write of `exitval`/`exited` at kernel_threads.c:183-184 goes to the caller's wrapper after the cleanup loop has unlinked it. That wrapper is already freed under the intended loop. Under the loop as written it is freed only if it was not first in the list, and it is leaked if it was. In the model the wrapper is no longer listed and the write has no visible effect.
- `thread_count` and `refcount` are C `int` fields, incremented at kernel_threads.c:24 and 60. The model uses unbounded integers, so it does not represent their overflow.
- ProcessExit.CascadeDefined: excludes init exiting with a non-empty children or exited list. The reparenting loop at kernel_threads.c:139-143 would then pop from and push to the same list forever. The append at kernel_threads.c:148 would append a list to itself.
- ProcessExit.LastExitCascade: stated only for an ordinary exit. The process must not be its own parent or its own child, and all of its children must be in the process table. `CascadeHaltsIff` covers the case where the process is its own parent.
- The FREE process state and the `argl` field of the PCB are not read or written by this core and are not modelled.

## Findings

| source | as written | input that shows it | evidently intended | confidence | as-written member | corrected member |
|---|---|---|---|---|---|---|
| kernel_threads.c:129-133 | each iteration unlinks the first wrapper node, then frees the wrapper of the node that is first after the unlink | a wrapper list holding one wrapper t: t is unlinked, the list head's own payload is passed to `free`, and t is never freed | free the wrapper whose node was just unlinked | not executed | WrapperCleanup.CleanupAsWrittenLeaksHead | WrapperCleanup.CleanupCorrected |

The rest of the model uses the intended behaviour. `ProcessExit.DropWrappers` only empties the wrapper map. It does not model which pointers get freed. That every listed wrapper is freed exactly once is stated only by `WrapperCleanup.CleanupCorrected`, over the list as a sequence, and no lemma connects the two.

=== FILE: cleanup.dfy ===
/**
 The loop that frees every wrapper when a process's last thread exits, over the
 wrapper list in list order. As written, each iteration unlinks the first node
 and then frees the wrapper of the node that is first AFTER the unlink: the
 wrapper that was removed is never freed, every other wrapper is freed one
 iteration early, and the last iteration frees whatever the list head itself
 carries. `None` stands for that payload of the list head.
 */
module WrapperCleanup {
  import opened KernelTypes

  /** What the loop as written frees, iteration by iteration. */
  function FreedAsWritten(list: seq<Tid>): (r: seq<Option<Tid>>) {
    seq(|list|, i requires 0 <= i < |list| => if i + 1 < |list| then Some(list[i + 1]) else None)
  }

  /** The loop as written: unlink the first node, then free the wrapper of the new first
      node (the list head's own payload once the list is empty). */
  method CleanupAsWritten(list: seq<Tid>) returns (freed: seq<Option<Tid>>)
    ensures freed == FreedAsWritten(list)
  {
    var rest := list;
    freed := [];
    while |rest| > 0
      invariant |freed| + |rest| == |list|
      invariant rest == list[|freed|..]
      invariant freed == FreedAsWritten(list)[..|freed|]
      decreases |rest|
    {
      rest := rest[1..];
      var victim := if |rest| > 0 then Some(rest[0]) else None;
      freed := freed + [victim];
    }
  }

  /** As written, the first wrapper of a non-empty list of distinct wrappers is never
      freed, and the last iteration frees the list head's payload instead of a wrapper. */
  lemma CleanupAsWrittenLeaksHead(list: seq<Tid>)
    requires |list| >= 1
    requires forall i, j :: 0 <= i < j < |list| ==> list[i] != list[j]
    ensures Some(list[0]) !in FreedAsWritten(list)
    ensures FreedAsWritten(list)[|list| - 1] == None
  {
    var f := FreedAsWritten(list);
    forall i | 0 <= i < |f|
      ensures f[i] != Some(list[0])
    {
      if i + 1 < |list| {
        assert f[i] == Some(list[i + 1]);
      }
    }
  }

  /** A list of one wrapper: the loop frees only the list head's payload. */
  lemma CleanupAsWrittenSingleton(t: Tid)
    ensures FreedAsWritten([t]) == [None]
  {
  }

  /** The intended loop: unlink the first node and free the wrapper that was unlinked. */
  method CleanupCorrected(list: seq<Tid>) returns (freed: seq<Tid>)
    ensures freed == list
  {
    var rest := list;
    freed := [];
    while |rest| > 0
      invariant freed + rest == list
      decreases |rest|
    {
      var victim := rest[0];
      rest := rest[1..];
      freed := freed + [victim];
    }
  }
}

=== FILE: exit.dfy ===
/**
 Thread exit at the level of the process table. The exit of a process's last
 thread runs the termination cascade: drop every wrapper, hand the children
 and the already-exited children to the init process, publish the process on
 its parent's exited list, release the argument buffer and the file table, and
 mark the process a zombie. Each step is a function whose contract says what
 that step leaves behind; `LastThreadExit` composes them in the order of the
 code. The steps, numbered by their place in kernel_threads.c:
   (1) drop the wrappers, lines 129-133;
   (2) re-parent the children to init, lines 139-143;
   (3) move the exited list to init, lines 147-150;
   (4) publish on the parent's exited list, lines 155-158;
   (5) the assertions that both lists are now empty, lines 161-162;
   (6) retire the process itself, lines 170-191.
 */
module ProcessExit {
  import opened KernelTypes
  import opened Threads
  import opened FileTable

  /** `Halted` is the kernel stopping on the emptiness assertions of the cascade. */
  datatype ExitOutcome = Exited(procs: ProcTable, decrefs: seq<Fcb>) | Halted

  /** What the cascade dereferences: the exiting process, init, and (unless the exiting
      process is init) its parent. Init never exits with children or exited children:
      the reparenting loop would then push onto the list it pops from. */
  ghost predicate CascadeDefined(procs: ProcTable, pid: Pid) {
    && pid in procs
    && InitPid in procs
    && (pid != InitPid ==> procs[pid].parent in procs)
    && (pid == InitPid ==> procs[pid].children == multiset{} && procs[pid].exitedChildren == multiset{})
  }

  /** Step 1: every wrapper of the process is unlinked and freed. */
  function DropWrappers(procs: ProcTable, pid: Pid): (r: ProcTable)
    requires pid in procs
    ensures r.Keys == procs.Keys
    ensures r[pid].ptcbs == map[]
    ensures r[pid].(ptcbs := procs[pid].ptcbs) == procs[pid]
    ensures forall q :: q in procs && q != pid ==> r[q] == procs[q]
  {
    procs[pid := procs[pid].(ptcbs := map[])]
  }

  /** The processes of `procs` listed in `kids` now have init as parent. */
  function AdoptedByInit(procs: ProcTable, kids: multiset<Pid>): (r: ProcTable)
    ensures r.Keys == procs.Keys
    ensures forall q :: q in procs && q in kids ==> r[q].parent == InitPid
    ensures forall q :: q in procs && q !in kids ==> r[q] == procs[q]
    ensures forall q :: q in procs ==> r[q].children == procs[q].children && OnlyTreeChanged(procs[q], r[q])
  {
    map q | q in procs :: if q in kids then procs[q].(parent := InitPid) else procs[q]
  }

  /** Only the process-tree fields, `parent` and `children`, may differ. */
  ghost predicate OnlyTreeChanged(p: Pcb, q: Pcb) {
    && q.pstate == p.pstate && q.threadCount == p.threadCount && q.mainThread == p.mainThread
    && q.ptcbs == p.ptcbs && q.exitedChildren == p.exitedChildren && q.args == p.args && q.fidt == p.fidt
  }

  /** Process `q`'s children list is replaced by `kids`; nothing else changes. */
  function WithChildren(procs: ProcTable, q: Pid, kids: multiset<Pid>): (r: ProcTable)
    requires q in procs
    ensures r.Keys == procs.Keys
    ensures r[q].children == kids && r[q].parent == procs[q].parent
    ensures OnlyTreeChanged(procs[q], r[q])
    ensures forall x :: x in procs && x != q ==> r[x] == procs[x]
  {
    procs[q := procs[q].(children := kids)]
  }

  /** Step 2: every child is re-parented to init and joins init's children. */
  function Reparent(procs: ProcTable, pid: Pid): (r: ProcTable)
    requires pid in procs && InitPid in procs
    requires pid == InitPid ==> procs[pid].children == multiset{}
    ensures r.Keys == procs.Keys
    ensures r[pid].children == multiset{}
    ensures pid != InitPid ==> r[InitPid].children == procs[InitPid].children + procs[pid].children
    ensures forall c :: c in procs && c in procs[pid].children ==> r[c].parent == InitPid
    ensures forall q :: q in procs && q !in procs[pid].children ==> r[q].parent == procs[q].parent
    ensures forall q :: q in procs && q != pid && q != InitPid ==> r[q].children == procs[q].children
    ensures forall q :: q in procs ==> OnlyTreeChanged(procs[q], r[q])
  {
    if pid == InitPid then procs
    else
      var kids := procs[pid].children;
      var moved := AdoptedByInit(procs, kids);
      var adopted := WithChildren(moved, InitPid, moved[InitPid].children + kids);
      WithChildren(adopted, pid, multiset{})
  }

  /** Only the exited-children list may differ. */
  ghost predicate OnlyExitedChanged(p: Pcb, q: Pcb) {
    && q.parent == p.parent && q.children == p.children
    && q.pstate == p.pstate && q.threadCount == p.threadCount && q.mainThread == p.mainThread
    && q.ptcbs == p.ptcbs && q.args == p.args && q.fidt == p.fidt
  }

  /** Step 3: the exited list is appended to init's exited list, leaving it empty. */
  function MoveExited(procs: ProcTable, pid: Pid): (r: ProcTable)
    requires pid in procs && InitPid in procs
    requires pid == InitPid ==> procs[pid].exitedChildren == multiset{}
    ensures r.Keys == procs.Keys
    ensures r[pid].exitedChildren == multiset{}
    ensures pid != InitPid ==> r[InitPid].exitedChildren == procs[InitPid].exitedChildren + procs[pid].exitedChildren
    ensures forall q :: q in procs && q != pid && q != InitPid ==> r[q] == procs[q]
    ensures forall q :: q in procs ==> OnlyExitedChanged(procs[q], r[q])
  {
    if procs[pid].exitedChildren == multiset{} then procs
    else
      var init := procs[InitPid];
      var appended := procs[InitPid := init.(exitedChildren := init.exitedChildren + procs[pid].exitedChildren)];
      appended[pid := appended[pid].(exitedChildren := multiset{})]
  }

  /** Step 4: a process other than init is pushed onto its parent's exited list. */
  function PublishZombie(procs: ProcTable, pid: Pid): (r: ProcTable)
    requires pid in procs && (pid != InitPid ==> procs[pid].parent in procs)
    ensures r.Keys == procs.Keys
    ensures pid != InitPid ==>
      r[procs[pid].parent].exitedChildren == procs[procs[pid].parent].exitedChildren + multiset{pid}
    ensures forall q :: q in procs && (pid == InitPid || q != procs[pid].parent) ==> r[q] == procs[q]
    ensures forall q :: q in procs ==> OnlyExitedChanged(procs[q], r[q])
  {
    if pid == InitPid then procs
    else
      var par := procs[pid].parent;
      procs[par := procs[par].(exitedChildren := procs[par].exitedChildren + multiset{pid})]
  }

  /** Step 6, on the exiting process itself: the argument buffer and every file
      slot are released, the last thread is uncounted, the main thread disconnected
      and the process becomes a zombie. */
  function Retire(p: Pcb): (r: Pcb)
    ensures r.args == None
    ensures r.fidt == Cleared(|p.fidt|)
    ensures r.threadCount == p.threadCount - 1
    ensures r.mainThread == None && r.pstate == Zombie
    ensures r.(args := p.args, fidt := p.fidt, threadCount := p.threadCount,
               mainThread := p.mainThread, pstate := p.pstate) == p
  {
    p.(args := None, fidt := Cleared(|p.fidt|), threadCount := p.threadCount - 1,
       mainThread := None, pstate := Zombie)
  }

  /** Steps 1 to 4 of the cascade, in the order of the code; step 5 is checked on its
      result by `LastThreadExit`. */
  function Cascade(procs: ProcTable, pid: Pid): (r: ProcTable)
    requires CascadeDefined(procs, pid)
    ensures r.Keys == procs.Keys
    ensures r[pid].ptcbs == map[] && r[pid].fidt == procs[pid].fidt
  {
    var dropped := DropWrappers(procs, pid);
    var reparented := Reparent(dropped, pid);
    var moved := MoveExited(reparented, pid);
    PublishZombie(moved, pid)
  }

  /** Process `q` is replaced by `p`; the table keeps its processes. */
  function WithProcess(procs: ProcTable, q: Pid, p: Pcb): (r: ProcTable)
    requires q in procs
    ensures r.Keys == procs.Keys && r[q] == p
    ensures forall x :: x in procs && x != q ==> r[x] == procs[x]
  {
    procs[q := p]
  }

  /** The last-thread branch of thread exit. The caller's own wrapper was unlinked with
      the others in step 1, so publishing the exit value on it changes nothing visible
      here. */
  function LastThreadExit(procs: ProcTable, pid: Pid): (r: ExitOutcome)
    requires CascadeDefined(procs, pid)
    ensures r.Exited? ==> r.procs.Keys == procs.Keys && r.decrefs == Populated(procs[pid].fidt)
  {
    var c := Cascade(procs, pid);
    var p := c[pid];
    if p.children != multiset{} || p.exitedChildren != multiset{} then Halted
    else Exited(WithProcess(c, pid, Retire(p)), Populated(p.fidt))
  }

  /** Thread exit, dispatched on whether the caller is the last counted thread. */
  function ThreadExit(procs: ProcTable, cur: Running, exitval: int): (r: ExitOutcome)
    requires cur.pid in procs && ThreadSelf(cur) in procs[cur.pid].ptcbs
    requires procs[cur.pid].threadCount == 1 ==> CascadeDefined(procs, cur.pid)
    ensures procs[cur.pid].threadCount != 1 ==>
      && r.Exited? && r.decrefs == [] && r.procs.Keys == procs.Keys
      && r.procs[cur.pid] == ExitNotLast(procs[cur.pid], cur, exitval)
      && forall q :: q in procs && q != cur.pid ==> r.procs[q] == procs[q]
  {
    if procs[cur.pid].threadCount == 1 then LastThreadExit(procs, cur.pid)
    else Exited(procs[cur.pid := ExitNotLast(procs[cur.pid], cur, exitval)], [])
  }

  /** The shape of the process tree the cascade lemmas are stated for: a process other
      than init, not its own parent nor its own child, whose children are all in the
      process table. */
  ghost predicate OrdinaryExit(procs: ProcTable, pid: Pid) {
    && CascadeDefined(procs, pid)
    && pid != InitPid
    && procs[pid].parent != pid
    && pid !in procs[pid].children
    && forall c :: c in procs[pid].children ==> c in procs
  }

  /** For an ordinary exit the emptiness assertions hold: the cascade runs to the end. */
  lemma CascadeCompletes(procs: ProcTable, pid: Pid)
    requires OrdinaryExit(procs, pid)
    ensures var c := Cascade(procs, pid);
      && c[pid].children == multiset{} && c[pid].exitedChildren == multiset{}
      && c[pid].threadCount == procs[pid].threadCount
      && LastThreadExit(procs, pid) == Exited(c[pid := Retire(c[pid])], Populated(procs[pid].fidt))
  {
    var dropped := DropWrappers(procs, pid);
    var reparented := Reparent(dropped, pid);
    var moved := MoveExited(reparented, pid);
    var published := PublishZombie(moved, pid);
    assert reparented[pid].parent == procs[pid].parent;
    assert moved[pid].parent == procs[pid].parent;
    assert published[pid].children == multiset{} && published[pid].exitedChildren == multiset{};
    assert published[pid].threadCount == procs[pid].threadCount;
  }

  lemma CascadeEmptiesProcess(procs: ProcTable, pid: Pid)
    requires OrdinaryExit(procs, pid)
    ensures var r := LastThreadExit(procs, pid);
      && r.Exited?
      && r.procs[pid].ptcbs == map[]
      && r.procs[pid].children == multiset{}
      && r.procs[pid].exitedChildren == multiset{}
      && r.procs[pid].args == None
      && r.procs[pid].fidt == Cleared(|procs[pid].fidt|)
      && r.procs[pid].threadCount == procs[pid].threadCount - 1
      && r.procs[pid].mainThread == None
      && r.procs[pid].pstate == Zombie
  {
    CascadeCompletes(procs, pid);
  }

  lemma CascadeReparentsChildren(procs: ProcTable, pid: Pid)
    requires OrdinaryExit(procs, pid)
    ensures var r := LastThreadExit(procs, pid);
      && r.Exited?
      && forall c :: c in procs[pid].children ==> r.procs[c].parent == InitPid
  {
    CascadeCompletes(procs, pid);
    forall c | c in procs[pid].children
      ensures Cascade(procs, pid)[c].parent == InitPid
    {
      CascadeSetsParent(procs, pid, c);
    }
  }

  lemma CascadeSetsParent(procs: ProcTable, pid: Pid, c: Pid)
    requires OrdinaryExit(procs, pid) && c in procs[pid].children
    ensures Cascade(procs, pid)[c].parent == InitPid
  {
    var dropped := DropWrappers(procs, pid);
    var reparented := Reparent(dropped, pid);
    var moved := MoveExited(reparented, pid);
    assert dropped[pid].children == procs[pid].children;
    assert reparented[c].parent == InitPid;
    assert moved[c].parent == InitPid;
  }

  lemma CascadeAdoptsChildren(procs: ProcTable, pid: Pid)
    requires OrdinaryExit(procs, pid)
    ensures var r := LastThreadExit(procs, pid);
      && r.Exited?
      && r.procs[InitPid].children == procs[InitPid].children + procs[pid].children
  {
    CascadeCompletes(procs, pid);
    var dropped := DropWrappers(procs, pid);
    var reparented := Reparent(dropped, pid);
    var moved := MoveExited(reparented, pid);
    var published := PublishZombie(moved, pid);
    assert dropped[pid].children == procs[pid].children;
    assert published[InitPid].children == reparented[InitPid].children;
  }

  lemma CascadeMovesExited(procs: ProcTable, pid: Pid)
    requires OrdinaryExit(procs, pid)
    ensures var r := LastThreadExit(procs, pid);
      && r.Exited?
      && r.procs[InitPid].exitedChildren == procs[InitPid].exitedChildren + procs[pid].exitedChildren
           + (if procs[pid].parent == InitPid then multiset{pid} else multiset{})
  {
    CascadeCompletes(procs, pid);
    var dropped := DropWrappers(procs, pid);
    var reparented := Reparent(dropped, pid);
    var moved := MoveExited(reparented, pid);
    var published := PublishZombie(moved, pid);
    assert reparented[pid].exitedChildren == procs[pid].exitedChildren;
    assert reparented[InitPid].exitedChildren == procs[InitPid].exitedChildren;
    assert moved[pid].parent == procs[pid].parent;
  }

  lemma CascadePublishesZombie(procs: ProcTable, pid: Pid)
    requires OrdinaryExit(procs, pid)
    ensures var r := LastThreadExit(procs, pid);
      var par := procs[pid].parent;
      && r.Exited?
      && pid in r.procs[par].exitedChildren
      && (par != InitPid ==> r.procs[par].exitedChildren == procs[par].exitedChildren + multiset{pid})
  {
    CascadeCompletes(procs, pid);
    var par := procs[pid].parent;
    var dropped := DropWrappers(procs, pid);
    var reparented := Reparent(dropped, pid);
    var moved := MoveExited(reparented, pid);
    var published := PublishZombie(moved, pid);
    assert moved[pid].parent == par;
    if par != InitPid {
      assert moved[par].exitedChildren == procs[par].exitedChildren;
    }
  }

  lemma CascadeChangesNothingElse(procs: ProcTable, pid: Pid)
    requires OrdinaryExit(procs, pid)
    ensures var r := LastThreadExit(procs, pid);
      var par := procs[pid].parent;
      && r.Exited?
      && forall q :: q in procs && q != pid && q != InitPid && q != par && q !in procs[pid].children ==>
           r.procs[q] == procs[q]
  {
    CascadeCompletes(procs, pid);
    var par := procs[pid].parent;
    var dropped := DropWrappers(procs, pid);
    var reparented := Reparent(dropped, pid);
    var moved := MoveExited(reparented, pid);
    var published := PublishZombie(moved, pid);
    assert moved[pid].parent == par;
    forall q | q in procs && q != pid && q != InitPid && q != par && q !in procs[pid].children
      ensures published[q] == procs[q]
    {
      assert reparented[q].parent == procs[q].parent;
      assert reparented[q].children == procs[q].children;
      assert reparented[q] == procs[q];
    }
  }

  /** The zombie left by an ordinary last exit still satisfies the process invariant:
      no wrappers and a thread count of zero. */
  lemma LastExitPreservesValid(procs: ProcTable, pid: Pid)
    requires OrdinaryExit(procs, pid) && procs[pid].threadCount == 1
    ensures LastThreadExit(procs, pid).Exited?
    ensures ValidPcb(LastThreadExit(procs, pid).procs[pid])
  {
    CascadeEmptiesProcess(procs, pid);
    assert LiveTids(map[]) == {};
  }

  /** The whole cascade, seen from the exit of the process's last thread. */
  lemma LastExitCascade(procs: ProcTable, cur: Running, exitval: int)
    requires cur.pid in procs && ThreadSelf(cur) in procs[cur.pid].ptcbs
    requires procs[cur.pid].threadCount == 1
    requires OrdinaryExit(procs, cur.pid)
    ensures var r := ThreadExit(procs, cur, exitval);
      var before := procs[cur.pid];
      var par := before.parent;
      && r.Exited?
      && r.procs.Keys == procs.Keys
      && r.decrefs == Populated(before.fidt)
      && r.procs[cur.pid].ptcbs == map[]
      && r.procs[cur.pid].children == multiset{}
      && r.procs[cur.pid].exitedChildren == multiset{}
      && r.procs[cur.pid].args == None
      && r.procs[cur.pid].fidt == Cleared(|before.fidt|)
      && r.procs[cur.pid].threadCount == 0
      && r.procs[cur.pid].mainThread == None
      && r.procs[cur.pid].pstate == Zombie
      && (forall c :: c in before.children ==>
            r.procs[c].parent == InitPid && c in r.procs[InitPid].children)
      && r.procs[InitPid].children == procs[InitPid].children + before.children
      && r.procs[InitPid].exitedChildren ==
           procs[InitPid].exitedChildren + before.exitedChildren + (if par == InitPid then multiset{cur.pid} else multiset{})
      && cur.pid in r.procs[par].exitedChildren
      && (par != InitPid ==> r.procs[par].exitedChildren == procs[par].exitedChildren + multiset{cur.pid})
      && (forall q :: q in procs && q != cur.pid && q != InitPid && q != par && q !in before.children ==>
            r.procs[q] == procs[q])
  {
    assert ThreadExit(procs, cur, exitval) == LastThreadExit(procs, cur.pid);
    CascadeEmptiesProcess(procs, cur.pid);
    CascadeReparentsChildren(procs, cur.pid);
    CascadeAdoptsChildren(procs, cur.pid);
    CascadeMovesExited(procs, cur.pid);
    CascadePublishesZombie(procs, cur.pid);
    CascadeChangesNothingElse(procs, cur.pid);
  }

  /** Init exiting without children or exited children publishes nothing: no other
      process changes. */
  lemma RootLastExit(procs: ProcTable, cur: Running, exitval: int)
    requires cur.pid == InitPid && cur.pid in procs && ThreadSelf(cur) in procs[cur.pid].ptcbs
    requires procs[cur.pid].threadCount == 1
    requires procs[cur.pid].children == multiset{} && procs[cur.pid].exitedChildren == multiset{}
    ensures var r := ThreadExit(procs, cur, exitval);
      && r.Exited?
      && r.procs.Keys == procs.Keys
      && r.procs[InitPid].pstate == Zombie && r.procs[InitPid].ptcbs == map[]
      && forall q :: q in procs && q != InitPid ==> r.procs[q] == procs[q]
  {
  }

  /** The emptiness assertions fail exactly when a process other than init is, at the
      moment of publication, its own parent. */
  lemma {:induction false} CascadeHaltsIff(procs: ProcTable, pid: Pid)
    requires CascadeDefined(procs, pid)
    ensures LastThreadExit(procs, pid).Halted? <==>
      pid != InitPid && procs[pid].parent == pid && pid !in procs[pid].children
  {
    CascadeLeftOver(procs, pid);
  }

  /** What the four list steps leave in the exiting process's own lists: no children,
      and in the exited list only the process itself, when it was its own parent. */
  lemma CascadeLeftOver(procs: ProcTable, pid: Pid)
    requires CascadeDefined(procs, pid)
    ensures var c := Cascade(procs, pid)[pid];
      && c.children == multiset{}
      && c.exitedChildren ==
           if pid != InitPid && procs[pid].parent == pid && pid !in procs[pid].children
           then multiset{pid} else multiset{}
  {
    var dropped := DropWrappers(procs, pid);
    var reparented := Reparent(dropped, pid);
    var moved := MoveExited(reparented, pid);
    var published := PublishZombie(moved, pid);
    assert moved[pid].children == multiset{} && moved[pid].exitedChildren == multiset{};
    if pid != InitPid {
      var par := moved[pid].parent;
      assert par == reparented[pid].parent;
      assert dropped[pid].children == procs[pid].children && dropped[pid].parent == procs[pid].parent;
      assert par == if pid in procs[pid].children then InitPid else procs[pid].parent;
      if par == pid {
        assert published[pid].exitedChildren == multiset{} + multiset{pid};
      } else {
        assert published[pid] == moved[pid];
      }
    }
  }
}

=== FILE: fidt.dfy ===
/**
 The file-descriptor table of a process and its release when the process's
 last thread exits: every populated slot is dereferenced once and cleared.
 */
module FileTable {
  import opened KernelTypes

  /** The file objects held by a table, in slot order. */
  function Populated(fidt: seq<Option<Fcb>>): (r: seq<Fcb>)
    ensures |r| <= |fidt|
    ensures forall f :: f in r <==> Some(f) in fidt
    decreases |fidt|
  {
    if |fidt| == 0 then []
    else
      (match fidt[0]
       case Some(f) => [f]
       case None => []) + Populated(fidt[1..])
  }

  /** A table of `n` empty slots. */
  function Cleared(n: nat): (r: seq<Option<Fcb>>)
    ensures |r| == n
    ensures forall i :: 0 <= i < n ==> r[i] == None
  {
    seq(n, _ => None)
  }

  lemma {:induction false} PopulatedSnoc(fidt: seq<Option<Fcb>>, x: Option<Fcb>)
    ensures Populated(fidt + [x]) == Populated(fidt) + (match x case Some(f) => [f] case None => [])
    decreases |fidt|
  {
    if |fidt| == 0 {
      assert fidt + [x] == [x];
      assert [x][1..] == [];
    } else {
      assert (fidt + [x])[0] == fidt[0];
      assert (fidt + [x])[1..] == fidt[1..] + [x];
      PopulatedSnoc(fidt[1..], x);
    }
  }

  /** The FIDT clean-up loop: every populated slot is handed to the file layer's
      decref (recorded in `decrefs`, in slot order) and set to empty. */
  method CloseFidt(fidt: seq<Option<Fcb>>) returns (table: seq<Option<Fcb>>, decrefs: seq<Fcb>)
    ensures table == Cleared(|fidt|)
    ensures decrefs == Populated(fidt)
  {
    table := fidt;
    decrefs := [];
    var i := 0;
    while i < |fidt|
      invariant 0 <= i <= |fidt|
      invariant |table| == |fidt|
      invariant forall j :: 0 <= j < i ==> table[j] == None
      invariant forall j :: i <= j < |fidt| ==> table[j] == fidt[j]
      invariant decrefs == Populated(fidt[..i])
    {
      assert fidt[..i + 1] == fidt[..i] + [fidt[i]];
      PopulatedSnoc(fidt[..i], fidt[i]);
      if table[i] != None {
        decrefs := decrefs + [table[i].value];
        table := table[i := None];
      }
      i := i + 1;
    }
    assert fidt[..i] == fidt;
  }
}

=== FILE: scenarios.dfy ===
/**
 Two concrete runs of the lifecycle: a join cancelled by a detach followed by a
 successful join, and the last exit of a process with one running and one
 zombie child.
 */
module Scenarios {
  import opened KernelTypes
  import opened Threads
  import opened ProcessExit

  const Idle: Ptcb := Ptcb(0, 0, 0, 0, false, false, 0)

  /** Process 5 runs only its main thread, whose wrapper is at address 10. */
  const Single: Pcb :=
    Pcb(InitPid, Alive, 1, Some(100), map[10 := Idle], multiset{}, multiset{}, None, [None, Some(40)])

  /** T1 (11) joins T2 (12); the main thread detaches T2, so the join fails. T1 then exits
      with 7, and the main thread's join on T1 returns 0 with value 7 and frees T1. */
  lemma DetachThenJoinScenario()
    ensures var main := Running(5, 10);
      var t1 := Running(5, 11);
      var c1 := CreateThread(Single, 11, 0, 0, 0);
      var c2 := CreateThread(c1.pcb, 12, 0, 0, 0);
      var j := JoinBegin(c2.pcb, t1, 12);
      var det := Detach(j.pcb, 12);
      var fin := JoinFinish(det.pcb, 12, true);
      var gone := ExitNotLast(fin.pcb, t1, 7);
      var j2 := JoinBegin(gone, main, 11);
      var fin2 := JoinFinish(j2.pcb, 11, true);
      && c2.pcb.threadCount == 3
      && j.outcome == Waiting
      && det.code == 0
      && fin.code == -1 && fin.out == None
      && gone.threadCount == 2
      && j2.outcome == Waiting
      && fin2.code == 0 && fin2.out == Some(7) && fin2.freed
  {
  }

  /** Init (1) with child 5; process 5 with running child 6 and zombie child 7. */
  const Table: ProcTable :=
    var init := Pcb(0, Alive, 1, Some(101), map[20 := Idle], multiset{5}, multiset{}, None, []);
    var child := Pcb(5, Alive, 1, Some(102), map[30 := Idle], multiset{}, multiset{}, None, []);
    var zombie := Pcb(5, Zombie, 0, None, map[], multiset{}, multiset{}, None, []);
    var p := Single.(children := multiset{6}, exitedChildren := multiset{7}, args := Some(50));
    map[InitPid := init, 5 := p, 6 := child, 7 := zombie]

  /** Process 5's only thread exits with 3 while child 6 runs and child 7 is a zombie. */
  lemma LastExitScenario()
    ensures var r := ThreadExit(Table, Running(5, 10), 3);
      && r.Exited?
      && r.decrefs == [40]
      && r.procs[6].parent == InitPid && 6 in r.procs[InitPid].children
      && 7 in r.procs[InitPid].exitedChildren && 5 in r.procs[InitPid].exitedChildren
      && r.procs[5].pstate == Zombie && r.procs[5].ptcbs == map[]
      && r.procs[5].children == multiset{} && r.procs[5].exitedChildren == multiset{}
  {
    var t := Table;
    assert t[5].children == multiset{6} && t[5].exitedChildren == multiset{7};
    assert t[5].parent == InitPid && t[5].threadCount == 1 && 10 in t[5].ptcbs;
    assert OrdinaryExit(t, 5);
    LastExitCascade(t, Running(5, 10), 3);
  }
}

=== FILE: threads.dfy ===
/**
 Thread creation, self-identification, join, detach and the exit of a thread
 that is not the last one of its process. Each operation runs under the
 kernel-wide lock, so it is one atomic transition of the current process's
 PCB. Join blocks once, in its wait loop, and is therefore split into
 `JoinBegin` (the checks and the reference-count increment) and `JoinFinish`
 (what happens once the target is exited or detached).
 */
module Threads {
  import opened KernelTypes

  /** A new wrapper: not exited, not detached, nobody joining. */
  function NewPtcb(task: Task, argl: int, args: Arg): (r: Ptcb) {
    Ptcb(task, argl, args, 0, false, false, 0)
  }

  /** The id of the running thread: the address of its wrapper. It has no effect and
      cannot fail. */
  function ThreadSelf(cur: Running): (r: Tid) {
    cur.ptcb
  }

  /** The PCB fields outside the wrapper list are those of `p`. */
  ghost predicate SameOutsideList(p: Pcb, q: Pcb) {
    q.(ptcbs := p.ptcbs) == p
  }

  /** Once set, neither `exited` nor `detached` is cleared on a wrapper that is still listed. */
  ghost predicate FlagsMonotone(p: Pcb, q: Pcb) {
    forall t :: t in p.ptcbs && t in q.ptcbs ==>
      (p.ptcbs[t].exited ==> q.ptcbs[t].exited) && (p.ptcbs[t].detached ==> q.ptcbs[t].detached)
  }

  /** The ids of the wrappers whose thread has not exited. */
  function LiveTids(m: map<Tid, Ptcb>): (r: set<Tid>) {
    set t | t in m && !m[t].exited
  }

  /** Process invariant: no wrapper has the null id, and `thread_count` counts the
      threads that have not exited. */
  ghost predicate ValidPcb(p: Pcb) {
    NoThread !in p.ptcbs && p.threadCount == |LiveTids(p.ptcbs)|
  }

  // ---------------------------------------------------------------- create

  datatype Created = Created(pcb: Pcb, tid: Tid)

  /** Thread creation: `addr` is the address the allocator gave the new wrapper. */
  function CreateThread(p: Pcb, addr: Tid, task: Task, argl: int, args: Arg): (r: Created)
    requires addr != NoThread && addr !in p.ptcbs
    ensures r.tid == addr
    ensures r.pcb.ptcbs.Keys == p.ptcbs.Keys + {r.tid}
    ensures |r.pcb.ptcbs| == |p.ptcbs| + 1
    ensures forall t :: t in p.ptcbs ==> r.pcb.ptcbs[t] == p.ptcbs[t]
    ensures var w := r.pcb.ptcbs[r.tid];
      !w.exited && !w.detached && w.refcount == 0 && w.task == task && w.argl == argl && w.args == args
    ensures r.pcb.threadCount == p.threadCount + 1
    ensures r.pcb.(ptcbs := p.ptcbs, threadCount := p.threadCount) == p
  {
    var q := p.(ptcbs := p.ptcbs[addr := NewPtcb(task, argl, args)], threadCount := p.threadCount + 1);
    assert q.ptcbs.Keys == p.ptcbs.Keys + {addr};
    Created(q, addr)
  }

  /** Creating one thread per address in `addrs`, in order. */
  function CreateThreads(p: Pcb, addrs: seq<Tid>, task: Task, argl: int, args: Arg): (r: Pcb)
    requires forall i :: 0 <= i < |addrs| ==> addrs[i] != NoThread && addrs[i] !in p.ptcbs
    requires forall i, j :: 0 <= i < j < |addrs| ==> addrs[i] != addrs[j]
    ensures r.threadCount == p.threadCount + |addrs|
    ensures forall t :: t in r.ptcbs <==> t in p.ptcbs || t in addrs
    ensures |r.ptcbs| == |p.ptcbs| + |addrs|
    ensures forall t :: t in p.ptcbs ==> r.ptcbs[t] == p.ptcbs[t]
    decreases |addrs|
  {
    if |addrs| == 0 then p
    else
      var q := CreateThread(p, addrs[0], task, argl, args).pcb;
      assert forall i :: 0 <= i < |addrs[1..]| ==> addrs[1..][i] == addrs[i + 1];
      CreateThreads(q, addrs[1..], task, argl, args)
  }

  // ---------------------------------------------------------------- join

  datatype BeginOutcome = Rejected | Waiting

  datatype JoinStart = JoinStart(pcb: Pcb, outcome: BeginOutcome)

  /** Join up to its wait loop. `Rejected` is the -1 return before any waiting. */
  function JoinBegin(p: Pcb, cur: Running, tid: Tid): (r: JoinStart)
    ensures r.outcome == Rejected <==> tid == NoThread || tid == ThreadSelf(cur) || tid !in p.ptcbs
    ensures r.outcome == Rejected ==> r.pcb == p
    ensures r.outcome == Waiting ==>
      && SameOutsideList(p, r.pcb)
      && r.pcb.ptcbs == p.ptcbs[tid := p.ptcbs[tid].(refcount := p.ptcbs[tid].refcount + 1)]
  {
    if tid == NoThread then JoinStart(p, Rejected)
    else if tid == ThreadSelf(cur) then JoinStart(p, Rejected)
    else if tid !in p.ptcbs then JoinStart(p, Rejected)
    else
      var w := p.ptcbs[tid];
      JoinStart(p.(ptcbs := p.ptcbs[tid := w.(refcount := w.refcount + 1)]), Waiting)
  }

  /** The end of a join: `code` is the return value, `out` what was stored through the
      exit-value pointer, `freed` whether this joiner unlinked and freed the wrapper. */
  datatype JoinDone = JoinDone(pcb: Pcb, code: int, out: Option<int>, freed: bool)

  /** Join after its wait loop; `wantValue` says whether the exit-value pointer is non-null. */
  function JoinFinish(p: Pcb, tid: Tid, wantValue: bool): (r: JoinDone)
    requires tid in p.ptcbs && Terminal(p.ptcbs[tid])
    ensures SameOutsideList(p, r.pcb)
    ensures r.freed <==> tid !in r.pcb.ptcbs
    ensures r.pcb.ptcbs.Keys == if r.freed then p.ptcbs.Keys - {tid} else p.ptcbs.Keys
    ensures forall t :: t in p.ptcbs && t != tid ==> r.pcb.ptcbs[t] == p.ptcbs[t]
    ensures !r.freed ==> r.pcb.ptcbs[tid] == p.ptcbs[tid].(refcount := p.ptcbs[tid].refcount - 1)
    ensures p.ptcbs[tid].detached ==> r.code == -1 && r.out == None && !r.freed
    ensures !p.ptcbs[tid].detached ==>
      && r.code == 0
      && r.out == (if wantValue then Some(p.ptcbs[tid].exitval) else None)
      && (r.freed <==> p.ptcbs[tid].refcount == 1)
    ensures FlagsMonotone(p, r.pcb)
  {
    var w := p.ptcbs[tid].(refcount := p.ptcbs[tid].refcount - 1);
    if w.detached then
      JoinDone(p.(ptcbs := p.ptcbs[tid := w]), -1, None, false)
    else
      var out := if wantValue then Some(w.exitval) else None;
      if w.refcount == 0 then
        JoinDone(p.(ptcbs := p.ptcbs - {tid}), 0, out, true)
      else
        JoinDone(p.(ptcbs := p.ptcbs[tid := w]), 0, out, false)
  }

  // ---------------------------------------------------------------- detach

  datatype Detached = Detached(pcb: Pcb, code: int)

  function Detach(p: Pcb, tid: Tid): (r: Detached)
    ensures r.code == -1 || r.code == 0
    ensures r.code == -1 <==> tid == NoThread || tid !in p.ptcbs || p.ptcbs[tid].exited
    ensures r.code == -1 ==> r.pcb == p
    ensures r.code == 0 ==>
      && SameOutsideList(p, r.pcb)
      && r.pcb.ptcbs == p.ptcbs[tid := p.ptcbs[tid].(detached := true)]
  {
    if tid == NoThread then Detached(p, -1)
    else if tid !in p.ptcbs then Detached(p, -1)
    else if p.ptcbs[tid].exited then Detached(p, -1)
    else Detached(p.(ptcbs := p.ptcbs[tid := p.ptcbs[tid].(detached := true)]), 0)
  }

  // ---------------------------------------------------------------- exit

  /** Exit of a thread while other threads of its process remain counted. */
  function ExitNotLast(p: Pcb, cur: Running, exitval: int): (r: Pcb)
    requires ThreadSelf(cur) in p.ptcbs && p.threadCount != 1
    ensures r.threadCount == p.threadCount - 1
    ensures r.(ptcbs := p.ptcbs, threadCount := p.threadCount) == p
    ensures var self := ThreadSelf(cur);
      && (p.ptcbs[self].detached ==> r.ptcbs == p.ptcbs - {self})
      && (!p.ptcbs[self].detached ==>
            r.ptcbs == p.ptcbs[self := p.ptcbs[self].(exitval := exitval, exited := true)])
    ensures FlagsMonotone(p, r)
  {
    var self := ThreadSelf(cur);
    var w := p.ptcbs[self].(exitval := exitval, exited := true);
    var q := p.(ptcbs := p.ptcbs[self := w], threadCount := p.threadCount - 1);
    if w.detached then q.(ptcbs := q.ptcbs - {self}) else q
  }

  // ---------------------------------------------------------------- invariant

  lemma LiveTidsSize(m: map<Tid, Ptcb>, t: Tid, w: Ptcb)
    requires t !in m && !w.exited
    ensures |LiveTids(m[t := w])| == |LiveTids(m)| + 1
  {
    assert LiveTids(m[t := w]) == LiveTids(m) + {t};
  }

  lemma CreatePreservesValid(p: Pcb, addr: Tid, task: Task, argl: int, args: Arg)
    requires ValidPcb(p) && addr != NoThread && addr !in p.ptcbs
    ensures ValidPcb(CreateThread(p, addr, task, argl, args).pcb)
  {
    LiveTidsSize(p.ptcbs, addr, NewPtcb(task, argl, args));
  }

  lemma JoinBeginPreservesValid(p: Pcb, cur: Running, tid: Tid)
    requires ValidPcb(p)
    ensures ValidPcb(JoinBegin(p, cur, tid).pcb)
  {
    var r := JoinBegin(p, cur, tid);
    if r.outcome == Waiting {
      assert LiveTids(r.pcb.ptcbs) == LiveTids(p.ptcbs);
    }
  }

  lemma JoinFinishPreservesValid(p: Pcb, tid: Tid, wantValue: bool)
    requires ValidPcb(p) && tid in p.ptcbs && Terminal(p.ptcbs[tid])
    ensures ValidPcb(JoinFinish(p, tid, wantValue).pcb)
  {
    var r := JoinFinish(p, tid, wantValue);
    assert LiveTids(r.pcb.ptcbs) == LiveTids(p.ptcbs);
  }

  lemma DetachPreservesValid(p: Pcb, tid: Tid)
    requires ValidPcb(p)
    ensures ValidPcb(Detach(p, tid).pcb)
  {
    var r := Detach(p, tid);
    if r.code == 0 {
      assert LiveTids(r.pcb.ptcbs) == LiveTids(p.ptcbs);
    }
  }

  lemma ExitNotLastPreservesValid(p: Pcb, cur: Running, exitval: int)
    requires ValidPcb(p) && ThreadSelf(cur) in p.ptcbs && !p.ptcbs[ThreadSelf(cur)].exited
    requires p.threadCount != 1
    ensures ValidPcb(ExitNotLast(p, cur, exitval))
  {
    var self := ThreadSelf(cur);
    var r := ExitNotLast(p, cur, exitval);
    assert LiveTids(r.ptcbs) == LiveTids(p.ptcbs) - {self};
  }

  /** Under the invariant, the running thread is the last one exactly when it is the
      only wrapper that has not exited. */
  lemma LastThreadIsOnlyLive(p: Pcb, cur: Running)
    requires ValidPcb(p) && ThreadSelf(cur) in p.ptcbs && !p.ptcbs[ThreadSelf(cur)].exited
    ensures p.threadCount == 1 <==> LiveTids(p.ptcbs) == {ThreadSelf(cur)}
    ensures p.threadCount != 1 ==> p.threadCount >= 2
  {
    var self := ThreadSelf(cur);
    var live := LiveTids(p.ptcbs);
    assert self in live;
    assert |live - {self}| == |live| - 1;
    if p.threadCount == 1 {
      assert live - {self} == {};
      assert live == {self};
    }
  }

  // ---------------------------------------------------------------- join properties

  /** The three pre-wait checks of join: it fails without touching the process. */
  lemma JoinRejectedUnchanged(p: Pcb, cur: Running, tid: Tid)
    requires tid == NoThread || tid == ThreadSelf(cur) || tid !in p.ptcbs
    ensures JoinBegin(p, cur, tid) == JoinStart(p, Rejected)
  {
  }

  /** A thread cannot join itself. */
  lemma JoinSelfRejected(p: Pcb, cur: Running)
    ensures JoinBegin(p, cur, ThreadSelf(cur)) == JoinStart(p, Rejected)
  {
  }

  /** A join's net effect on the target's reference count is zero: what the wait loop's
      increment added, the finish takes away (or the wrapper is gone). */
  lemma JoinNetRefcount(p: Pcb, cur: Running, tid: Tid, wantValue: bool)
    requires JoinBegin(p, cur, tid).outcome == Waiting
    requires Terminal(p.ptcbs[tid])
    ensures var q := JoinBegin(p, cur, tid).pcb;
      var d := JoinFinish(q, tid, wantValue);
      && (!d.freed ==> d.pcb == p)
      && (d.freed ==> p.ptcbs[tid].refcount == 0 && d.pcb == p.(ptcbs := p.ptcbs - {tid}))
  {
    var q := JoinBegin(p, cur, tid).pcb;
    var d := JoinFinish(q, tid, wantValue);
    assert q.ptcbs[tid].refcount == p.ptcbs[tid].refcount + 1;
    if !d.freed {
      assert d.pcb.ptcbs == p.ptcbs;
    }
  }

  /** Exited but not detached: a sibling's join returns 0 with the published exit value. */
  lemma JoinAfterExit(p: Pcb, target: Running, exitval: int, joiner: Running)
    requires ThreadSelf(target) in p.ptcbs && p.threadCount != 1
    requires !p.ptcbs[ThreadSelf(target)].detached
    requires ThreadSelf(joiner) != ThreadSelf(target) && ThreadSelf(target) != NoThread
    ensures var q := ExitNotLast(p, target, exitval);
      var s := JoinBegin(q, joiner, ThreadSelf(target));
      && s.outcome == Waiting
      && var d := JoinFinish(s.pcb, ThreadSelf(target), true);
         d.code == 0 && d.out == Some(exitval)
  {
  }

  /** A join that really waits, ended by a detach: it fails, the wrapper stays listed,
      and its reference count is back where it was before the join. */
  lemma JoinWaitEndedByDetach(p: Pcb, joiner: Running, tid: Tid, wantValue: bool)
    requires JoinBegin(p, joiner, tid).outcome == Waiting
    requires !p.ptcbs[tid].exited && !p.ptcbs[tid].detached
    ensures var q := JoinBegin(p, joiner, tid).pcb;
      var det := Detach(q, tid);
      && det.code == 0
      && var d := JoinFinish(det.pcb, tid, wantValue);
         && d.code == -1 && d.out == None && !d.freed
         && d.pcb.ptcbs[tid].refcount == p.ptcbs[tid].refcount
  {
  }

  /** A join that really waits, ended by the target's exit: it returns 0 with the
      published value, and frees the wrapper exactly when nobody else was joining it.
      Otherwise the reference count is back where it was before the join. */
  lemma JoinWaitEndedByExit(p: Pcb, joiner: Running, target: Running, v: int, wantValue: bool)
    requires JoinBegin(p, joiner, ThreadSelf(target)).outcome == Waiting
    requires !p.ptcbs[ThreadSelf(target)].exited && !p.ptcbs[ThreadSelf(target)].detached
    requires p.threadCount != 1
    ensures var tid := ThreadSelf(target);
      var q := JoinBegin(p, joiner, tid).pcb;
      var e := ExitNotLast(q, target, v);
      && tid in e.ptcbs && Terminal(e.ptcbs[tid])
      && var d := JoinFinish(e, tid, wantValue);
         && d.code == 0
         && d.out == (if wantValue then Some(v) else None)
         && (d.freed <==> p.ptcbs[tid].refcount == 0)
         && (!d.freed ==> d.pcb.ptcbs[tid].refcount == p.ptcbs[tid].refcount)
  {
  }

  /** Detach cancels joins: a joiner already waiting when the detach happens fails. */
  lemma DetachFailsWaitingJoiner(p: Pcb, joiner: Running, tid: Tid, wantValue: bool)
    requires JoinBegin(p, joiner, tid).outcome == Waiting
    requires !p.ptcbs[tid].exited
    ensures var q := JoinBegin(p, joiner, tid).pcb;
      var det := Detach(q, tid);
      && det.code == 0
      && var d := JoinFinish(det.pcb, tid, wantValue);
         d.code == -1 && d.out == None && tid in d.pcb.ptcbs
  {
  }

  /** Detach cancels joins: a join begun after a successful detach fails as well. */
  lemma DetachFailsLaterJoiner(p: Pcb, joiner: Running, tid: Tid, wantValue: bool)
    requires Detach(p, tid).code == 0
    ensures var q := Detach(p, tid).pcb;
      var s := JoinBegin(q, joiner, tid);
      s.outcome == Waiting ==> JoinFinish(s.pcb, tid, wantValue).code == -1
  {
  }

  /** Detaching a live, already detached thread succeeds again and changes nothing. */
  lemma DetachIdempotent(p: Pcb, tid: Tid)
    requires Detach(p, tid).code == 0
    ensures var q := Detach(p, tid).pcb;
      Detach(q, tid) == Detached(q, 0)
  {
  }

  /** Joiners, all woken, finishing one after the other on the same wrapper; `wants[i]`
      says whether the i-th passed a non-null out-pointer. */
  function FinishJoiners(p: Pcb, tid: Tid, wants: seq<bool>): (r: seq<JoinDone>)
    requires tid in p.ptcbs && Terminal(p.ptcbs[tid]) && p.ptcbs[tid].refcount >= |wants|
    ensures |r| == |wants|
    decreases |wants|
  {
    if |wants| == 0 then []
    else
      var d := JoinFinish(p, tid, wants[0]);
      if |wants| == 1 then [d]
      else [d] + FinishJoiners(d.pcb, tid, wants[1..])
  }

  /** When the reference count is exactly the number of waiting joiners, they all see
      the same outcome and only the last one can free the wrapper: it does so when the
      target exited undetached and never when it was detached. */
  lemma {:induction false} JoinersAgree(p: Pcb, tid: Tid, wants: seq<bool>)
    requires tid in p.ptcbs && Terminal(p.ptcbs[tid])
    requires p.ptcbs[tid].refcount == |wants| && |wants| >= 1
    ensures var ds := FinishJoiners(p, tid, wants);
      var k := |wants|;
      && (forall i :: 0 <= i < k ==>
            if p.ptcbs[tid].detached then ds[i].code == -1 && ds[i].out == None
            else (ds[i].code == 0
                  && ds[i].out == (if wants[i] then Some(p.ptcbs[tid].exitval) else None)))
      && (forall i :: 0 <= i < k - 1 ==> !ds[i].freed)
      && (ds[k - 1].freed <==> !p.ptcbs[tid].detached)
    decreases |wants|
  {
    var ds := FinishJoiners(p, tid, wants);
    var d := JoinFinish(p, tid, wants[0]);
    if |wants| > 1 {
      var q := d.pcb;
      assert q.ptcbs[tid] == p.ptcbs[tid].(refcount := |wants| - 1);
      JoinersAgree(q, tid, wants[1..]);
      assert ds == [d] + FinishJoiners(q, tid, wants[1..]);
      forall i | 1 <= i < |wants|
        ensures wants[i] == wants[1..][i - 1] && ds[i] == FinishJoiners(q, tid, wants[1..])[i - 1]
      {
      }
    }
  }
}

=== FILE: types.dfy ===
/**
 The kernel state touched by the thread lifecycle: per-thread wrappers (PTCBs)
 and process control blocks (PCBs). Pointers become opaque numbers, intrusive
 lists become maps (wrappers, keyed by their id) or multisets (process lists,
 whose order nothing relies on).
 */
module KernelTypes {

  /** A thread id is the address of the thread's wrapper; only equality matters. */
  type Tid = nat
  /** A process id, the index of a PCB in the process table. */
  type Pid = nat
  /** The entry procedure handed to thread creation (opaque). */
  type Task = nat
  /** The address of an argument buffer (opaque). */
  type Arg = nat
  /** A file control block referenced from a file-descriptor table (opaque). */
  type Fcb = nat
  /** A scheduler thread control block (opaque). */
  type ThreadRef = nat

  /** The reserved "no thread" id, the null wrapper address. */
  const NoThread: Tid := 0
  /** The init process, which adopts orphans and has no parent. */
  const InitPid: Pid := 1

  datatype Option<T> = None | Some(value: T)

  /** The per-thread wrapper: exit state, join/detach flags and joiner count. */
  datatype Ptcb = Ptcb(
    task: Task,
    argl: int,
    args: Arg,
    exitval: int,
    exited: bool,
    detached: bool,
    refcount: int
  )

  /** A joiner's wait loop ends exactly when its target is in one of these states. */
  predicate Terminal(w: Ptcb) {
    w.exited || w.detached
  }

  datatype ProcState = Alive | Zombie

  /** The fields of a process control block that the thread lifecycle reads or writes. */
  datatype Pcb = Pcb(
    parent: Pid,
    pstate: ProcState,
    threadCount: int,
    mainThread: Option<ThreadRef>,
    ptcbs: map<Tid, Ptcb>,
    children: multiset<Pid>,
    exitedChildren: multiset<Pid>,
    args: Option<Arg>,
    fidt: seq<Option<Fcb>>
  )

  /** The process table, indexed by process id. */
  type ProcTable = map<Pid, Pcb>

  /** What the scheduler knows about the running thread: its process and its wrapper. */
  datatype Running = Running(pid: Pid, ptcb: Tid)
}
